=== FILE: README.md ===
# WhatsApp chatbot bridge of the Henmir CRM, modelled in Dafny

`bridge.js` connects the CRM to WhatsApp. It archives every WhatsApp message into SQLite.
It answers automated-reply requests through a language model that may call two CRM tools.
It also lets the operator list chats and switch the bot off or on per chat. This project
models the logic of that file as pure functions over a small abstract state:

- the `conversations` table, a map from chat id to `{contact_name, last_message_timestamp, bot_active}`;
- the append-only `messages` log, a sequence;
- the in-memory per-chat history buffer, a map from chat id to a sequence of chat messages.

Each HTTP handler and each WhatsApp event is one atomic step. The language model, the CRM
backend and the SQLite read errors are inputs that the model does not interpret.

Modules, one per concern of the file:

- `Common` (`common.dfy`): `Option`, `Result`, and the order-preserving `Filter` with its
  concatenation and idempotence lemmas.
- `ChatId` (`chat_id.dfy`): phone number to chat id (`digits + "@c.us"`).
- `Store` (`store.dfy`): the conversation table, the message log, `disable_bot`,
  `enable_bot`, the reply gate, and `archiveMessage` with its two event handlers.
- `Prompt` (`prompt.dfy`): the chat-completion message shapes.
- `History` (`history.dfy`): the bounded history buffer (`slice(-20)`).
- `Tools` (`tools.dfy`): the tool-name to endpoint map of `callCrmTool` and the tool-call loop.
- `Turn` (`turn.dfy`): one request to `/api/whatsauto_reply`, start to end.
- `ChatList` (`chat_list.dfy`): `/api/crm/chats`, which filters, shapes and sorts the chats.

Two facts shape the model:

- The reply turn returns a trace: the prompt of every model call it made and every backend
  request it sent. This makes "no model call happens" and "no request is sent for that call"
  statable.
- `bot_active` is the integer SQLite stores. The gate tests `=== 0`, and the operator view
  reads the integer as a JavaScript truth value. For integers the two agree, and `Store.Gate`
  proves it.

What `bridge.js` does and does not do, as the model follows it:

- The file has no `status`, no `known_identity`, no fallback "list all" search, no tags, no
  notifications and no inactivity analyzer.
- A failing backend call throws, and the whole turn ends in the apology. The failure is never
  handed to the model as an `{error: …}` payload. A backend body of JSON `null` also throws, when
  the gateway logs its `length` (line 231).
- History lives in process memory and is not read back from the store.
- The reply endpoint itself writes no message row. Messages reach the log only through the
  WhatsApp `message`/`message_create` events.
- There is no media-placeholder filter.

## Model

| member | source | states |
|---|---|---|
| `ChatId.ChatIdOf` | bridge.js:248 | the chat id is the sender's digits followed by `@c.us`: its length is the digit count plus five, every character before the suffix is a digit, and that prefix is exactly the sender's digits |
| `ChatId.DigitsInOrder` | bridge.js:248 | the digits keep their original order: the digits of `a + b` are the digits of `a` followed by the digits of `b` |
| `ChatId.DigitOnlySender` | bridge.js:248 | a sender's chat id is the sender itself plus `@c.us` if and only if the sender is digits only |
| `ChatId.ChatIdIdempotent` | bridge.js:372 | normalising an already derived chat id gives the same id, because the suffix contains no digit (the campaign sender applies the same rewrite) |
| `ChatId.SameChatIffSameDigits` | bridge.js:248 | two senders map to the same chat exactly when they have the same digits, so punctuation and spacing in a phone number do not split a conversation |
| `Store.Gate` | bridge.js:250-253 | the reply gate opens exactly when the lookup succeeds and the operator view's `bot_active` (missing row counts as true, as at line 139) is true; with no row it opens exactly when the lookup succeeds |
| `Store.DisableBot` | bridge.js:167-181 | afterwards the chat has a row with `bot_active = 0`, whether or not it had one; an existing row keeps its name and timestamp, a new row has neither; the key set grows by at most this chat; every other row is unchanged |
| `Store.DisableIdempotent` | bridge.js:169-177 | disabling twice is the same as disabling once |
| `Store.EnableBot` | bridge.js:185-196 | never creates a row (same key set); an existing row gets `bot_active = 1` and nothing else changes; afterwards the view shows the bot active; every other row is unchanged |
| `Store.EnableIdempotent` | bridge.js:188-189 | enabling twice is the same as enabling once |
| `Store.ToggleBot` | bridge.js:167-196 | disable then enable leaves a row behind and reopens the gate; enable then disable closes it; toggling one chat does not move another chat's gate |
| `Store.Archive` | bridge.js:418-426 | the log grows by exactly one entry and keeps its old entries; that entry is filed under `to` for the bot's own messages and `from` otherwise, with sender `me` for the bot's; afterwards the chat has a row with that timestamp; an existing row keeps `bot_active` and name, a new row gets the default `bot_active = 1`; other rows are unchanged |
| `Store.OnMessage` | bridge.js:428 | every incoming message adds one log entry, filed under its sender and not from the bot |
| `Store.OnMessageCreate` | bridge.js:429 | a created message that is not the bot's changes nothing; the bot's own adds one entry filed under the recipient with sender `me` |
| `Store.ArchiveAll` | bridge.js:428-429 | archiving a batch grows the log by the batch size and never removes a conversation row |
| `Store.ArchiveKeepsGate` | bridge.js:424-425 | archiving changes a chat's gate only when it creates that chat's row, and then the gate opens; a silenced chat stays silenced |
| `Store.DisabledSurvivesArchiving` | bridge.js:424-425 | a chat with `bot_active = 0` still has it after any number of archived messages |
| `History.Past` | bridge.js:273 | a chat with a buffer gets exactly that buffer; a chat without one has the empty history |
| `History.LastN` | bridge.js:336 | for n ≥ 1, `slice(-n)` keeps `min(n, length)` elements, and they are the tail of the input |
| `History.Record` | bridge.js:335-336 | the new buffer has at most 20 entries (exactly `min(old + 2, 20)`), its last two are the user message and the assistant reply, and what precedes them is the tail of the old buffer |
| `History.LastNAbsorbs` | bridge.js:336 | truncating before appending keeps the same last entries as truncating only at the end |
| `History.RecordAllKeepsLatest` | bridge.js:335-336 | after any number of answered messages the buffer is exactly the last 20 entries of the whole exchange, and stays within 20 |
| `Tools.Resolve` | bridge.js:203-214 | a tool name resolves exactly when it is `search_vacancies_tool` or `validate_registration_tool`, to `/api/bot_tools/vacancies` and `/api/bot_tools/validate_registration` respectively |
| `Tools.ResolveToolName` | bridge.js:280-283 | each offered tool's name resolves back to its own endpoint |
| `Tools.ResolveRejectsUndeclared` | bridge.js:209-214 | a name is unknown if and only if it is the name of neither offered tool |
| `Tools.LookupAsWritten` | bridge.js:205-209 | the property read as written: own entries for the two tools, inherited `Object.prototype` members for their names, `undefined` otherwise |
| `Tools.InheritedNamePassesGuard` | bridge.js:209-214 | as written, the name `toString` passes the `!endpoint` guard although no tool has that name |
| `Tools.Dispatch` | bridge.js:302-321 | the loop's failing index, if any, is within the calls; there is one tool message per completed call; at most one request beyond those is sent, and when no call fails there is exactly one request per call; a call completes only when its arguments parse into a value `URLSearchParams` accepts (line 216 throws on an array with an item that is not a pair), its name resolves and the backend answers with a non-`null` body (line 231 throws on `null`) |
| `Tools.DispatchStopsAtFirstFailure` | bridge.js:302-306 | every call before the stopping point completed, and the call it stops at did not |
| `Tools.DispatchFailsIffSomeCallFails` | bridge.js:302-306 | the loop fails if and only if some call cannot complete |
| `Tools.DispatchMessagesVerbatim` | bridge.js:315-320 | the i-th tool message carries the i-th call's id and name, and its content is the backend's serialised answer, unchanged |
| `Tools.DispatchRequests` | bridge.js:303-306 | the requests sent are those of the completed calls in order, plus the failing call's own when its arguments parsed into a value `URLSearchParams` accepts and its name resolved |
| `Tools.UnknownToolStops` | bridge.js:209-214 | an unknown name after completed calls stops the loop at that call, and no request is sent for it |
| `Tools.NullAnswerStops` | bridge.js:229-233 | a backend answering `null` after completed calls stops the loop at that call: its request was sent, and no tool message is built for it |
| `Turn.FirstPrompt` | bridge.js:273-278 | the first prompt is the system instruction, then the chat's history, then the new user message |
| `Turn.Answered` | bridge.js:335-336 | an answered message changes only this chat's history buffer, which becomes the recorded exchange; the store and other chats' buffers are unchanged |
| `Turn.Finish` | bridge.js:328-338 | a `null` final content ends in the apology with the state unchanged; otherwise the content is the reply and the exchange is recorded |
| `Turn.Reply` | bridge.js:240-345 | the request is rejected exactly when sender or message is missing; the store is never changed; the state is unchanged or has exactly this exchange recorded; a closed gate gives `""` with no model call, no request and no change; an open gate with readable settings makes one or two model calls, the first with the first prompt; a direct answer with content is the reply and is recorded, with one model call and no request; when every tool call completes, the second prompt is the first plus the model's message and the tool messages, a second answer with content is the reply and is recorded, and a failed second call or a `null` content gives the apology with the state unchanged; no model call means no change |
| `Turn.DisabledChatIsSilent` | bridge.js:250-253 | after `disable_bot` on a chat, any message whose sender has that chat's digits gets `""`, without a model call or backend request, and changes nothing |
| `Turn.MissingRowCountsAsActive` | bridge.js:250-253 | a chat with no row passes the gate when the lookup succeeds, and the model is called |
| `Turn.FailuresApologise` | bridge.js:255-343 | an unreadable settings table, a failed first model call, a `null` direct answer, a failed tool call, a failed second model call and a `null` final content after tool calls each give the apology with the state unchanged |
| `Turn.UnknownToolAbortsTurn` | bridge.js:302-343 | an unknown tool name after completed calls gives the apology, unchanged state, one model call only, and no request for that call |
| `Turn.NullToolAnswerAbortsTurn` | bridge.js:229-233 | a `null` backend answer after completed calls gives the apology, unchanged state and one model call only; that call's request was sent |
| `Turn.ToolResultsForwardedVerbatim` | bridge.js:297-328 | when all calls complete, the second prompt is the first prompt, then the model's tool-call message, then one tool message per call, in order, with matching id and name and the backend's answer as content; one request per call |
| `Turn.EmptyToolListAsksAgain` | bridge.js:297-327 | an empty but present tool-call list still leads to a second model call, with no tool message and no request |
| `Turn.AnsweredEndsWithExchange` | bridge.js:335-336 | after an answered message (its state is the recorded exchange, even when the buffer comes out equal to the old one) the chat's buffer has at most 20 entries and ends with the user message and the reply |
| `Turn.TurnKeepsHistoryBounded` | bridge.js:336 | if every buffer is within 20 entries before a turn, every buffer is within 20 after it |
| `ChatList.Summarize` | bridge.js:109-114 | each entry keeps the chat's id and timestamp; a missing or empty name falls back to `id.user`; a missing last message becomes `""` |
| `ChatList.UserChats` | bridge.js:107-114 | every shaped entry is the summary of some non-group chat of the input, and every non-group chat's summary is listed |
| `ChatList.UserChatsConcat` | bridge.js:107-114 | the user chats of two lists, one after the other, are the user chats of each list in turn: the client's order is kept |
| `ChatList.UserChatsSingle` | bridge.js:107-114 | a single chat is listed, as its summary, exactly when it is not a group chat |
| `ChatList.Insert` | bridge.js:117 | inserting into a newest-first list keeps it newest-first and adds exactly that entry |
| `ChatList.SortByRecency` | bridge.js:117 | the result is newest-first by timestamp, a missing one counting as 0, and is a permutation of the input |
| `ChatList.InsertStable` | bridge.js:117 | inserting an entry keeps it ahead of all entries with the same timestamp |
| `ChatList.SortStable` | bridge.js:117 | for every timestamp, the entries with that timestamp come out in the order they went in |
| `ChatList.ListChats` | bridge.js:101-124 | not ready gives the not-ready error and a failed listing gives the fetch error; otherwise the result is newest-first and a permutation of the non-group chats' summaries |
| `ChatList.ListChatsShape` | bridge.js:107-117 | no group chat appears, every entry summarises a listed chat, and chats with equal timestamps keep the client's order |

## Left out

- SQLite, Express routing, HTTP status codes, CORS and body parsing: the table and log are a `map` and a `seq`. A missing `sender`/`message` after merging body and query string is the empty string, and `BadRequest` stands for the 400 response.
- Store write failures in `disable_bot`/`enable_bot` (the 500 response) and the unobserved failure of the follow-up `INSERT`: each handler is one atomic step that succeeds.
- Interleaving of the separate `UPDATE`/`INSERT` statements and concurrent turns for one chat: each handler is one atomic step.
- The OpenAI client and `JSON.parse` of tool arguments: the model is a function from prompt to completion, and `ToolCall.arguments == None` stands for arguments that do not parse and for parsed arguments that `new URLSearchParams` rejects (line 216); either way the call throws before any request.
- `fetch`, the URL text that `URLSearchParams` builds, the API key header, and `response.json()` followed by `JSON.stringify`: the backend is a function from request to reply, a successful reply is already the serialised JSON text, and a body that is not JSON is a `ToolError`.
- Settings read and write with their defaults (lines 67-96, 256-261) and the system-prompt JSON: the turn receives the finished system prompt, or `None` when reading the settings fails.
- The WhatsApp client lifecycle (`qr`, `ready`, `disconnected`), manual send, and the WebSocket bridge (lines 147-163, 350-388): transport and UI. Only the chat-id rewrite at line 372 is modelled.
- `GET /api/crm/conversations/:chatId` (lines 128-143): only its `bot_active` default is modelled, through `Store.BotActiveView`. The message list it returns is ordered by `ORDER BY timestamp`, and SQLite leaves the order of equal timestamps unspecified.
- Console logging. Two of its statements throw, and both are modelled: `responseData.length` on a `null` backend body (line 231, in `Tools.Dispatch`) and `finalReply.substring` on a `null` reply (line 334, in `Turn.Finish`).
- Request: `sender` and `message` are strings in the model. A non-string `sender`, such as a JSON number or a query parameter given twice (Express parses it as an array), makes `sender.replace` throw at line 248. That line is outside the `try`, so no response is sent and the rejection goes unhandled. The model does not represent this case.

## Findings

| source | as written | input that shows it | evidently intended | confidence | as-written member | corrected member |
|---|---|---|---|---|---|---|
| bridge.js:205-214 | `endpointMap` is a plain object literal, so `endpointMap[functionName]` also finds members inherited from `Object.prototype`, and `if (!endpoint)` rejects only `undefined` | a tool call named `toString` (likewise `constructor`, `valueOf`, `__proto__`) passes the guard, and a request URL is built from the inherited member's string form (a function's source text, or `[object Object]` for `__proto__`) | only the two declared tool names resolve, and every other name throws `Herramienta desconocida` | not executed; follows from JavaScript property lookup, but is reachable only if the model emits an undeclared tool name | `Tools.InheritedNamePassesGuard` | `Tools.ResolveRejectsUndeclared` |

The turn uses the corrected `Tools.Resolve`.

=== FILE: chat_id.dfy ===
/**
  Chat-id normalisation: the WhatsApp address of a phone number is its digits followed by
  the personal-chat suffix `@c.us` (the JavaScript `replace(/\D/g, '')`, where `\D` is any
  character outside `0`-`9`).
 */
module ChatId {
  import opened Common

  /** Suffix of a one-to-one WhatsApp chat id. */
  const UserSuffix: string := "@c.us"

  predicate IsDigit(c: char) {
    '0' <= c <= '9'
  }

  /** The characters of `s` that the regular expression `\D` does not match. */
  function Digits(s: string): (r: string)
    ensures forall i :: 0 <= i < |r| ==> IsDigit(r[i])
    ensures |r| <= |s|
  {
    Filter(IsDigit, s)
  }

  /** The chat id the reply endpoint and the campaign sender derive from a phone number. */
  function ChatIdOf(sender: string): (id: string)
    ensures |id| == |Digits(sender)| + |UserSuffix|
    ensures id[|id| - |UserSuffix|..] == UserSuffix
    ensures forall i :: 0 <= i < |id| - |UserSuffix| ==> IsDigit(id[i])
    ensures id[..|id| - |UserSuffix|] == Digits(sender)
  {
    Digits(sender) + UserSuffix
  }

  /** The digits are kept in their original order: the digits of a concatenation are the
      concatenation of the digits. */
  lemma DigitsInOrder(a: string, b: string)
    ensures Digits(a + b) == Digits(a) + Digits(b)
  {
    FilterConcat(IsDigit, a, b);
  }

  /** A sender is kept verbatim (before the suffix) exactly when it is digits only. */
  lemma DigitOnlySender(sender: string)
    ensures ChatIdOf(sender) == sender + UserSuffix <==> forall i :: 0 <= i < |sender| ==> IsDigit(sender[i])
  {
    FilterKeepsAll(IsDigit, sender);
    if ChatIdOf(sender) == sender + UserSuffix {
      assert Digits(sender) == (sender + UserSuffix)[..|sender|];
      assert (sender + UserSuffix)[..|sender|] == sender;
    }
  }

  /** Normalising a chat id again gives the same chat id: the suffix contains no digit. */
  lemma ChatIdIdempotent(sender: string)
    ensures ChatIdOf(ChatIdOf(sender)) == ChatIdOf(sender)
  {
    var d := Digits(sender);
    assert Digits(UserSuffix) == [] by {
      assert forall i :: 0 <= i < |UserSuffix| ==> !IsDigit(UserSuffix[i]);
      NoDigitFilter(UserSuffix);
    }
    DigitsInOrder(d, UserSuffix);
    FilterIdempotent(IsDigit, sender);
    calc {
      ChatIdOf(ChatIdOf(sender));
      Digits(d + UserSuffix) + UserSuffix;
      (Digits(d) + Digits(UserSuffix)) + UserSuffix;
      { assert Digits(d) == d; }
      (d + []) + UserSuffix;
      { assert d + [] == d; }
      ChatIdOf(sender);
    }
  }

  /** A string without digits has no digits to keep. */
  lemma {:induction false} NoDigitFilter(s: string)
    requires forall i :: 0 <= i < |s| ==> !IsDigit(s[i])
    ensures Digits(s) == []
  {
    if s != [] {
      assert forall i :: 0 <= i < |s[1..]| ==> !IsDigit(s[1..][i]) by {
        forall i | 0 <= i < |s[1..]| ensures !IsDigit(s[1..][i]) {
          assert s[1..][i] == s[i + 1];
        }
      }
      NoDigitFilter(s[1..]);
    }
  }

  /** Two senders share a chat exactly when they have the same digits (so `+504 9999-8888`
      and `50499998888` land in the same conversation). */
  lemma SameChatIffSameDigits(a: string, b: string)
    ensures ChatIdOf(a) == ChatIdOf(b) <==> Digits(a) == Digits(b)
  {
  }
}

=== FILE: chat_list.dfy ===
/**
  The operator's chat list (`/api/crm/chats`): the WhatsApp client's chats without group
  chats, each shaped into a summary, newest first. JavaScript's `Array.prototype.sort` is
  stable, so chats with equal timestamps keep the client's order.
 */
module ChatList {
  import opened Common

  /** The fields of a client chat the handler reads. */
  datatype RawChat = RawChat(
    serialized: string,
    user: string,
    name: Option<string>,
    isGroup: bool,
    timestamp: Option<int>,
    lastMessage: Option<string>)

  /** One entry of the response. `timestamp` is passed through, missing or not. */
  datatype Summary = Summary(id: string, name: string, timestamp: Option<int>, lastMessage: string)

  datatype ListError = NotReady | FetchFailed

  /** The `map` step: a missing or empty name falls back to the user part of the id, and a
      missing last message becomes the empty string. */
  function Summarize(c: RawChat): (s: Summary)
    ensures s.id == c.serialized && s.timestamp == c.timestamp
    ensures s.name == (if c.name.Some? && c.name.value != "" then c.name.value else c.user)
    ensures c.lastMessage.None? ==> s.lastMessage == ""
    ensures c.lastMessage.Some? ==> s.lastMessage == c.lastMessage.value
  {
    var name := match c.name
      case Some(n) => if n != "" then n else c.user
      case None => c.user;
    Summary(c.serialized, name, c.timestamp, if c.lastMessage.Some? then c.lastMessage.value else "")
  }

  /** The comparator's key, `timestamp || 0`. */
  function SortKey(s: Summary): int {
    match s.timestamp
    case Some(t) => t
    case None => 0
  }

  ghost predicate Sorted(s: seq<Summary>) {
    forall i, j :: 0 <= i < j < |s| ==> SortKey(s[i]) >= SortKey(s[j])
  }

  /** The entries whose key is `k`, in order. */
  function WithKey(s: seq<Summary>, k: int): seq<Summary> {
    Filter((x: Summary) => SortKey(x) == k, s)
  }

  /** `s` summarises one of the non-group chats of `chats`. */
  ghost predicate SummaryOfUserChat(s: Summary, chats: seq<RawChat>) {
    exists c :: c in chats && !c.isGroup && s == Summarize(c)
  }

  /** The `filter` and `map` steps over a list of chats, one chat at a time. Written as its own
      recursion rather than through `Filter` and a comprehension, whose combined contracts make
      the order and completeness proofs run out of resource. */
  function Summaries(chats: seq<RawChat>): seq<Summary> {
    if chats == [] then []
    else (if chats[0].isGroup then [] else [Summarize(chats[0])]) + Summaries(chats[1..])
  }

  lemma {:induction false} SummariesSound(chats: seq<RawChat>)
    ensures |Summaries(chats)| <= |chats|
    ensures forall i :: 0 <= i < |Summaries(chats)| ==> SummaryOfUserChat(Summaries(chats)[i], chats)
  {
    if chats != [] {
      SummariesSound(chats[1..]);
      var rest := Summaries(chats[1..]);
      var r := Summaries(chats);
      assert forall c :: c in chats[1..] ==> c in chats;
      forall i | 0 <= i < |r|
        ensures SummaryOfUserChat(r[i], chats)
      {
        if chats[0].isGroup {
          assert SummaryOfUserChat(rest[i], chats[1..]);
        } else if i == 0 {
          assert chats[0] in chats;
        } else {
          assert r[i] == rest[i - 1];
          assert SummaryOfUserChat(rest[i - 1], chats[1..]);
        }
      }
    }
  }

  lemma {:induction false} SummariesComplete(chats: seq<RawChat>)
    ensures forall c :: c in chats && !c.isGroup ==> Summarize(c) in Summaries(chats)
  {
    if chats != [] {
      SummariesComplete(chats[1..]);
      assert forall c :: c in chats ==> c == chats[0] || c in chats[1..];
    }
  }

  lemma {:induction false} SummariesConcat(a: seq<RawChat>, b: seq<RawChat>)
    ensures Summaries(a + b) == Summaries(a) + Summaries(b)
  {
    if a == [] {
      assert a + b == b;
    } else {
      assert (a + b)[0] == a[0];
      assert (a + b)[1..] == a[1..] + b;
      SummariesConcat(a[1..], b);
    }
  }

  /** The user chats of the handler: only summaries of non-group chats, and every non-group
      chat's summary. */
  function UserChats(chats: seq<RawChat>): (r: seq<Summary>)
    ensures |r| <= |chats|
    ensures forall i :: 0 <= i < |r| ==> SummaryOfUserChat(r[i], chats)
    ensures forall c :: c in chats && !c.isGroup ==> Summarize(c) in r
  {
    SummariesSound(chats);
    SummariesComplete(chats);
    Summaries(chats)
  }

  /** The chats of a concatenation are the chats of each part, one after the other: the
      filter keeps the client's order. */
  lemma UserChatsConcat(a: seq<RawChat>, b: seq<RawChat>)
    ensures UserChats(a + b) == UserChats(a) + UserChats(b)
  {
    SummariesConcat(a, b);
  }

  /** A single chat is listed, summarised, exactly when it is not a group chat. */
  lemma UserChatsSingle(c: RawChat)
    ensures UserChats([c]) == if c.isGroup then [] else [Summarize(c)]
  {
    assert [c][1..] == [];
    assert Summaries([c]) == (if c.isGroup then [] else [Summarize(c)]) + Summaries([]);
  }

  /** Put `x` before the first entry that is not strictly newer: ahead of every entry with the
      same key. */
  function Insert(x: Summary, l: seq<Summary>): (r: seq<Summary>)
    requires Sorted(l)
    ensures Sorted(r)
    ensures multiset(r) == multiset(l) + multiset{x}
    ensures |r| == |l| + 1 && (r[0] == x || (|l| > 0 && r[0] == l[0]))
  {
    if l == [] || SortKey(x) >= SortKey(l[0]) then
      assert forall j :: 0 <= j < |l| ==> SortKey(l[0]) >= SortKey(l[j]);
      [x] + l
    else
      var rest := Insert(x, l[1..]);
      assert l == [l[0]] + l[1..];
      assert SortKey(l[0]) >= SortKey(rest[0]);
      assert forall j :: 0 <= j < |rest| ==> SortKey(rest[0]) >= SortKey(rest[j]);
      [l[0]] + rest
  }

  /** Newest first, equal keys in their original order. */
  function SortByRecency(s: seq<Summary>): (r: seq<Summary>)
    ensures Sorted(r)
    ensures multiset(r) == multiset(s)
  {
    if s == [] then []
    else
      assert s == [s[0]] + s[1..];
      Insert(s[0], SortByRecency(s[1..]))
  }

  lemma WithKeyConcat(a: seq<Summary>, b: seq<Summary>, k: int)
    ensures WithKey(a + b, k) == WithKey(a, k) + WithKey(b, k)
  {
    FilterConcat((x: Summary) => SortKey(x) == k, a, b);
  }

  lemma WithKeySingle(x: Summary, k: int)
    ensures WithKey([x], k) == if SortKey(x) == k then [x] else []
  {
  }

  lemma SwapAroundEmpty(a: seq<Summary>, b: seq<Summary>, c: seq<Summary>)
    requires a == [] || b == []
    ensures a + (b + c) == b + (a + c)
  {
  }

  /** Moving `x` past an entry with a strictly greater key does not reorder any key class. */
  lemma PassNewer(x: Summary, y: Summary, tail: seq<Summary>, moved: seq<Summary>, k: int)
    requires SortKey(x) < SortKey(y)
    requires WithKey(moved, k) == WithKey([x] + tail, k)
    ensures WithKey([y] + moved, k) == WithKey([x] + ([y] + tail), k)
  {
    WithKeyConcat([y], moved, k);
    WithKeyConcat([x], tail, k);
    WithKeyConcat([x], [y] + tail, k);
    WithKeyConcat([y], tail, k);
    WithKeySingle(x, k);
    WithKeySingle(y, k);
    SwapAroundEmpty(WithKey([y], k), WithKey([x], k), WithKey(tail, k));
  }

  /** Inserting keeps `x` ahead of the entries that share its key. */
  lemma {:induction false} InsertStable(x: Summary, l: seq<Summary>, k: int)
    requires Sorted(l)
    ensures WithKey(Insert(x, l), k) == WithKey([x] + l, k)
  {
    if l != [] && SortKey(x) < SortKey(l[0]) {
      var tail := l[1..];
      InsertStable(x, tail, k);
      PassNewer(x, l[0], tail, Insert(x, tail), k);
      assert l == [l[0]] + tail;
      assert Insert(x, l) == [l[0]] + Insert(x, tail);
    }
  }

  /** The sort is stable: for every key, the entries with that key come out in the order they
      went in. */
  lemma {:induction false} SortStable(s: seq<Summary>, k: int)
    ensures WithKey(SortByRecency(s), k) == WithKey(s, k)
  {
    if s != [] {
      var tail := s[1..];
      SortStable(tail, k);
      InsertStable(s[0], SortByRecency(tail), k);
      WithKeyConcat([s[0]], SortByRecency(tail), k);
      WithKeyConcat([s[0]], tail, k);
      assert s == [s[0]] + tail;
    }
  }

  /** The whole handler: an error when the client is not ready or listing its chats fails,
      otherwise the user chats, newest first. */
  function ListChats(ready: bool, fetched: Option<seq<RawChat>>): (r: Result<seq<Summary>, ListError>)
    ensures !ready ==> r == Err(NotReady)
    ensures ready && fetched.None? ==> r == Err(FetchFailed)
    ensures ready && fetched.Some? ==>
              && r.Ok?
              && Sorted(r.value)
              && multiset(r.value) == multiset(UserChats(fetched.value))
  {
    if !ready then Err(NotReady)
    else match fetched
      case None => Err(FetchFailed)
      case Some(chats) => Ok(SortByRecency(UserChats(chats)))
  }

  /** No group chat is listed, every entry is the summary of a listed chat, and chats with the
      same timestamp keep the client's order. */
  lemma ListChatsShape(chats: seq<RawChat>, k: int)
    ensures var r := ListChats(true, Some(chats)).value;
            && (forall i :: 0 <= i < |r| ==> SummaryOfUserChat(r[i], chats))
            && WithKey(r, k) == WithKey(UserChats(chats), k)
  {
    var u := UserChats(chats);
    var r := SortByRecency(u);
    SortStable(u, k);
    forall i | 0 <= i < |r|
      ensures SummaryOfUserChat(r[i], chats)
    {
      assert r[i] in multiset(u);
      var j :| 0 <= j < |u| && u[j] == r[i];
    }
  }
}

=== FILE: common.dfy ===
/** Small shared vocabulary: optional values, results, and order-preserving filtering. */
module Common {

  /** A value that may be absent (JavaScript's `undefined`/`null`). */
  datatype Option<+T> = None | Some(value: T)

  /** A handler outcome: a value, or the error the handler responds with. */
  datatype Result<+T, +E> = Ok(value: T) | Err(error: E)

  /** The elements of `s` that satisfy `p`, in their original order. */
  function Filter<T>(p: T -> bool, s: seq<T>): (r: seq<T>)
    ensures |r| <= |s|
    ensures forall i :: 0 <= i < |r| ==> p(r[i])
    ensures forall x :: x in r ==> x in s
    ensures multiset(r) <= multiset(s)
  {
    if s == [] then []
    else
      assert s == [s[0]] + s[1..];
      (if p(s[0]) then [s[0]] else []) + Filter(p, s[1..])
  }

  /** Filtering distributes over concatenation: it neither reorders nor mixes the two halves. */
  lemma {:induction false} FilterConcat<T>(p: T -> bool, a: seq<T>, b: seq<T>)
    ensures Filter(p, a + b) == Filter(p, a) + Filter(p, b)
  {
    if a == [] {
      assert a + b == b;
    } else {
      assert (a + b)[0] == a[0];
      assert (a + b)[1..] == a[1..] + b;
      FilterConcat(p, a[1..], b);
    }
  }

  /** Filtering keeps a sequence unchanged exactly when every element already satisfies `p`. */
  lemma {:induction false} FilterKeepsAll<T>(p: T -> bool, s: seq<T>)
    ensures Filter(p, s) == s <==> forall i :: 0 <= i < |s| ==> p(s[i])
  {
    if s != [] {
      FilterKeepsAll(p, s[1..]);
      if forall i :: 0 <= i < |s| ==> p(s[i]) {
        assert forall i :: 0 <= i < |s[1..]| ==> p(s[1..][i]) by {
          forall i | 0 <= i < |s[1..]| ensures p(s[1..][i]) {
            assert s[1..][i] == s[i + 1];
          }
        }
        assert s == [s[0]] + s[1..];
      }
    }
  }

  /** Filtering twice by the same predicate is the same as filtering once. */
  lemma FilterIdempotent<T>(p: T -> bool, s: seq<T>)
    ensures Filter(p, Filter(p, s)) == Filter(p, s)
  {
    FilterKeepsAll(p, Filter(p, s));
  }
}

=== FILE: history.dfy ===
/**
  The in-memory per-chat history buffer: after every answered message the user's text and
  the assistant's reply are appended and only the most recent entries are kept.
 */
module History {
  import opened Common
  import opened Prompt

  /** How many entries a chat's buffer keeps. */
  const HistoryLimit: nat := 20

  type Buffers = map<string, seq<ChatMessage>>

  /** The chat's buffer, or the empty history when the chat has none yet. */
  function Past(h: Buffers, chatId: string): (r: seq<ChatMessage>)
    ensures chatId !in h ==> r == []
    ensures chatId in h ==> r == h[chatId]
  {
    if chatId in h then h[chatId] else []
  }

  /** The last `n` elements of `s` (all of `s` when it is shorter): JavaScript's `slice(-n)`
      for a positive `n` (`slice(-0)` would keep everything). */
  function LastN<T>(s: seq<T>, n: nat): (r: seq<T>)
    requires n > 0
    ensures |r| == if |s| <= n then |s| else n
    ensures s == s[..|s| - |r|] + r
  {
    if |s| <= n then s else s[|s| - n..]
  }

  /** The pair one answered message contributes to the history. */
  function Exchange(user: string, reply: string): seq<ChatMessage> {
    [UserMsg(user), AssistantMsg(Some(reply), None)]
  }

  /** The buffer after one answered message: bounded, ending in the new exchange, and a
      suffix of the old buffer followed by that exchange. */
  function Record(past: seq<ChatMessage>, user: string, reply: string): (r: seq<ChatMessage>)
    ensures |r| <= HistoryLimit
    ensures |r| == if |past| + 2 <= HistoryLimit then |past| + 2 else HistoryLimit
    ensures r[|r| - 2..] == Exchange(user, reply)
    ensures r[..|r| - 2] == past[|past| + 2 - |r|..]
  {
    var full := past + Exchange(user, reply);
    var r := LastN(full, HistoryLimit);
    assert r == full[|full| - |r|..];
    r
  }

  /** Truncating early loses nothing that truncating late would keep. */
  lemma LastNAbsorbs<T>(a: seq<T>, b: seq<T>, n: nat)
    requires n > 0
    ensures LastN(LastN(a, n) + b, n) == LastN(a + b, n)
  {
    var a' := LastN(a, n);
    assert a == a[..|a| - |a'|] + a';
    assert a + b == a[..|a| - |a'|] + (a' + b);
  }

  /** The transcript of several answered messages, oldest first. */
  function Transcript(turns: seq<(string, string)>): (r: seq<ChatMessage>)
    ensures |r| == 2 * |turns|
  {
    if turns == [] then [] else Exchange(turns[0].0, turns[0].1) + Transcript(turns[1..])
  }

  /** The buffer after several answered messages, one after the other. */
  function RecordAll(past: seq<ChatMessage>, turns: seq<(string, string)>): seq<ChatMessage>
    decreases |turns|
  {
    if turns == [] then past else RecordAll(Record(past, turns[0].0, turns[0].1), turns[1..])
  }

  /** However many messages are answered, a buffer that starts within the limit is exactly the
      last `HistoryLimit` entries of the whole conversation. */
  lemma {:induction false} RecordAllKeepsLatest(past: seq<ChatMessage>, turns: seq<(string, string)>)
    requires |past| <= HistoryLimit
    ensures RecordAll(past, turns) == LastN(past + Transcript(turns), HistoryLimit)
    ensures |RecordAll(past, turns)| <= HistoryLimit
    decreases |turns|
  {
    if turns == [] {
      assert past + Transcript(turns) == past;
    } else {
      var x := Exchange(turns[0].0, turns[0].1);
      var rest := Transcript(turns[1..]);
      var next := Record(past, turns[0].0, turns[0].1);
      assert next == LastN(past + x, HistoryLimit);
      RecordAllKeepsLatest(next, turns[1..]);
      LastNAbsorbs(past + x, rest, HistoryLimit);
      assert Transcript(turns) == x + rest;
      AppendAssoc(past, x, rest);
      calc {
        RecordAll(past, turns);
        RecordAll(next, turns[1..]);
        LastN(next + rest, HistoryLimit);
        LastN((past + x) + rest, HistoryLimit);
        LastN(past + Transcript(turns), HistoryLimit);
      }
    }
  }

  /** Sequence concatenation regrouped, stated once so the calc above stays cheap. */
  lemma AppendAssoc<T>(a: seq<T>, b: seq<T>, c: seq<T>)
    ensures a + (b + c) == (a + b) + c
  {
  }

  /** Every buffer within the limit. */
  ghost predicate Bounded(h: Buffers) {
    forall c :: c in h ==> |h[c]| <= HistoryLimit
  }
}

=== FILE: prompt.dfy ===
/**
  The chat-completion message shapes the reply turn exchanges with the language model.
  The model itself is outside this model: a completion is whatever it answered.
 */
module Prompt {
  import opened Common

  /** A model-issued function call. `arguments` is the result of `JSON.parse` on the call's
      argument text, as the query string `URLSearchParams` builds from it: `None` when parsing
      throws, or when the parsed value is one `URLSearchParams` rejects (an array with an item
      that is not a two-element array). */
  datatype ToolCall = ToolCall(id: string, name: string, arguments: Option<string>)

  datatype ChatMessage =
    | SystemMsg(content: string)
    | UserMsg(content: string)
    | AssistantMsg(text: Option<string>, toolCalls: Option<seq<ToolCall>>)
    | ToolMsg(toolCallId: string, name: string, content: string)

  /** `choices[0].message` of a completion, or a failed request. `toolCalls` is `None` when the
      field is absent; an empty list is still present (and truthy in JavaScript). */
  datatype Completion =
    | Answer(content: Option<string>, toolCalls: Option<seq<ToolCall>>)
    | ModelError
}

=== FILE: store.dfy ===
/**
  The SQLite store: the `conversations` table (one row per chat id) and the append-only
  `messages` log, with the operator's enable/disable actions, the reply gate, and the
  automatic archiving of every WhatsApp message.
 */
module Store {
  import opened Common

  /** `bot_active` as SQLite stores it: an integer, `1` by the column default. */
  const BotOn: int := 1
  const BotOff: int := 0

  /** One `conversations` row; `contact_name` and `last_message_timestamp` may be NULL. */
  datatype Conversation = Conversation(
    contactName: Option<string>,
    lastMessageTimestamp: Option<int>,
    botActive: int)

  /** The `conversations` table, keyed by its primary key `chat_id`. */
  type Table = map<string, Conversation>

  /** One `messages` row. The autoincrement `id` is the row's position in the log. */
  datatype Message = Message(chatId: string, sender: string, body: string, timestamp: int, fromMe: bool)

  datatype Db = Db(conversations: Table, messages: seq<Message>)

  /** The fields of a WhatsApp message the archiver reads. */
  datatype WaMessage = WaMessage(from: string, to: string, body: string, timestamp: int, fromMe: bool)

  /** The operator view's `bot_active`: a chat without a row counts as active, otherwise the
      row's integer is read as a JavaScript truth value. */
  predicate BotActiveView(t: Table, chatId: string) {
    chatId !in t || t[chatId].botActive != 0
  }

  /** The reply endpoint's gate: stay silent when the lookup fails or the row's `bot_active`
      is exactly `0`. It lets a message through exactly when the lookup succeeds and the
      operator view shows the bot as active. */
  function Gate(t: Table, chatId: string, lookupFailed: bool): (open: bool)
    ensures open <==> !lookupFailed && BotActiveView(t, chatId)
    ensures chatId !in t ==> (open <==> !lookupFailed)
  {
    !(lookupFailed || (chatId in t && t[chatId].botActive == 0))
  }

  /** `disable_bot`: clear the flag on the chat's row, or insert a fresh disabled row when the
      update matched none. */
  function DisableBot(t: Table, chatId: string): (r: Table)
    ensures r.Keys == t.Keys + {chatId}
    ensures chatId in r && r[chatId].botActive == BotOff
    ensures !BotActiveView(r, chatId)
    ensures chatId in t ==> r[chatId].contactName == t[chatId].contactName
    ensures chatId in t ==> r[chatId].lastMessageTimestamp == t[chatId].lastMessageTimestamp
    ensures chatId !in t ==> r[chatId].contactName.None? && r[chatId].lastMessageTimestamp.None?
    ensures forall c :: c in t && c != chatId ==> r[c] == t[c]
  {
    if chatId in t then t[chatId := t[chatId].(botActive := BotOff)]
    else t[chatId := Conversation(None, None, BotOff)]
  }

  /** `enable_bot`: set the flag on the chat's row by an update alone; a chat without a row
      stays without one. */
  function EnableBot(t: Table, chatId: string): (r: Table)
    ensures r.Keys == t.Keys
    ensures chatId in t ==> r[chatId] == t[chatId].(botActive := BotOn)
    ensures BotActiveView(r, chatId)
    ensures forall c :: c in t && c != chatId ==> r[c] == t[c]
  {
    if chatId in t then t[chatId := t[chatId].(botActive := BotOn)] else t
  }

  lemma DisableIdempotent(t: Table, chatId: string)
    ensures DisableBot(DisableBot(t, chatId), chatId) == DisableBot(t, chatId)
  {
  }

  lemma EnableIdempotent(t: Table, chatId: string)
    ensures EnableBot(EnableBot(t, chatId), chatId) == EnableBot(t, chatId)
  {
  }

  /** Disabling then enabling reopens the gate but leaves behind the row that disabling
      created; enabling then disabling always closes it. */
  lemma ToggleBot(t: Table, chatId: string, other: string)
    requires other != chatId
    ensures chatId in EnableBot(DisableBot(t, chatId), chatId)
    ensures Gate(EnableBot(DisableBot(t, chatId), chatId), chatId, false)
    ensures !Gate(DisableBot(EnableBot(t, chatId), chatId), chatId, false)
    ensures Gate(DisableBot(t, chatId), other, false) == Gate(t, other, false)
  {
  }

  /** The chat a message is filed under: the recipient for the bot's own messages. */
  function ArchiveChat(msg: WaMessage, fromMe: bool): string {
    if fromMe then msg.to else msg.from
  }

  /** `archiveMessage`: append to the log, insert a conversation row unless one exists (a new
      row takes the column default, bot on), then set the row's last-message timestamp. */
  function Archive(db: Db, msg: WaMessage, fromMe: bool): (r: Db)
    ensures |r.messages| == |db.messages| + 1
    ensures r.messages[..|db.messages|] == db.messages
    ensures var m := r.messages[|db.messages|];
            && m.chatId == ArchiveChat(msg, fromMe)
            && m.sender == (if fromMe then "me" else msg.from)
            && m.body == msg.body && m.timestamp == msg.timestamp && m.fromMe == fromMe
    ensures var c := ArchiveChat(msg, fromMe);
            && c in r.conversations
            && r.conversations[c].lastMessageTimestamp == Some(msg.timestamp)
            && (c in db.conversations ==>
                  r.conversations[c] == db.conversations[c].(lastMessageTimestamp := Some(msg.timestamp)))
            && (c !in db.conversations ==>
                  r.conversations[c] == Conversation(None, Some(msg.timestamp), BotOn))
    ensures r.conversations.Keys == db.conversations.Keys + {ArchiveChat(msg, fromMe)}
    ensures forall c :: c in db.conversations && c != ArchiveChat(msg, fromMe) ==>
              r.conversations[c] == db.conversations[c]
  {
    var chatId := ArchiveChat(msg, fromMe);
    var sender := if fromMe then "me" else msg.from;
    var logged := db.messages + [Message(chatId, sender, msg.body, msg.timestamp, fromMe)];
    var inserted :=
      if chatId in db.conversations then db.conversations
      else db.conversations[chatId := Conversation(None, Some(msg.timestamp), BotOn)];
    var updated := inserted[chatId := inserted[chatId].(lastMessageTimestamp := Some(msg.timestamp))];
    Db(updated, logged)
  }

  /** The client's `message` event: every incoming message is archived as not from the bot. */
  function OnMessage(db: Db, msg: WaMessage): (r: Db)
    ensures |r.messages| == |db.messages| + 1
    ensures r.messages[|db.messages|].chatId == msg.from && !r.messages[|db.messages|].fromMe
  {
    Archive(db, msg, false)
  }

  /** The client's `message_create` event: only the bot's own messages are archived. */
  function OnMessageCreate(db: Db, msg: WaMessage): (r: Db)
    ensures !msg.fromMe ==> r == db
    ensures msg.fromMe ==> |r.messages| == |db.messages| + 1
    ensures msg.fromMe ==> r.messages[|r.messages| - 1].chatId == msg.to
    ensures msg.fromMe ==> r.messages[|r.messages| - 1].sender == "me"
  {
    if msg.fromMe then Archive(db, msg, true) else db
  }

  /** Archiving never silences a chat nor revives a silenced one: a chat's gate only changes
      when archiving creates its row, and then it opens. */
  lemma ArchiveKeepsGate(db: Db, msg: WaMessage, fromMe: bool, chatId: string, lookupFailed: bool)
    ensures var after := Archive(db, msg, fromMe).conversations;
            Gate(after, chatId, lookupFailed) ==
              if chatId == ArchiveChat(msg, fromMe) && chatId !in db.conversations then !lookupFailed
              else Gate(db.conversations, chatId, lookupFailed)
  {
  }

  /** A chat the operator disabled stays disabled however many messages are archived. */
  lemma {:induction false} DisabledSurvivesArchiving(db: Db, chatId: string, msgs: seq<WaMessage>, fromMe: bool)
    requires chatId in db.conversations && db.conversations[chatId].botActive == BotOff
    ensures var after := ArchiveAll(db, msgs, fromMe);
            chatId in after.conversations && after.conversations[chatId].botActive == BotOff
    decreases |msgs|
  {
    if msgs != [] {
      DisabledSurvivesArchiving(Archive(db, msgs[0], fromMe), chatId, msgs[1..], fromMe);
    }
  }

  /** Archive a batch of messages in order. */
  function ArchiveAll(db: Db, msgs: seq<WaMessage>, fromMe: bool): (r: Db)
    ensures |r.messages| == |db.messages| + |msgs|
    ensures db.conversations.Keys <= r.conversations.Keys
    decreases |msgs|
  {
    if msgs == [] then db else ArchiveAll(Archive(db, msgs[0], fromMe), msgs[1..], fromMe)
  }
}

=== FILE: tools.dfy ===
/**
  The tool gateway: the endpoint map of `callCrmTool` and the loop of the reply turn that
  runs the model's tool calls one after the other, stopping at the first failure.
 */
module Tools {
  import opened Common
  import opened Prompt

  /** The two backend endpoints of the tool map. */
  datatype Endpoint = Vacancies | ValidateRegistration {
    function Path(): string {
      match this
      case Vacancies => "/api/bot_tools/vacancies"
      case ValidateRegistration => "/api/bot_tools/validate_registration"
    }
  }

  /** The tool name under which the model is offered each endpoint. */
  function ToolName(e: Endpoint): string {
    match e
    case Vacancies => "search_vacancies_tool"
    case ValidateRegistration => "validate_registration_tool"
  }

  /** The endpoint a tool name resolves to; any other name is unknown. */
  function Resolve(name: string): (r: Option<Endpoint>)
    ensures r.Some? <==> name == "search_vacancies_tool" || name == "validate_registration_tool"
    ensures r == Some(Vacancies) ==> r.value.Path() == "/api/bot_tools/vacancies"
    ensures r == Some(ValidateRegistration) ==> r.value.Path() == "/api/bot_tools/validate_registration"
    ensures r.Some? ==> ToolName(r.value) == name
  {
    if name == "search_vacancies_tool" then Some(Vacancies)
    else if name == "validate_registration_tool" then Some(ValidateRegistration)
    else None
  }

  /** Offering an endpoint under its tool name and resolving that name gives the endpoint back. */
  lemma ResolveToolName(e: Endpoint)
    ensures Resolve(ToolName(e)) == Some(e)
  {
  }

  /** The members every JavaScript object literal inherits from `Object.prototype`; reading any
      of them from `endpointMap` gives a function or an object, both truthy. */
  const PrototypeMembers: set<string> := {
    "constructor", "hasOwnProperty", "isPrototypeOf", "propertyIsEnumerable",
    "toLocaleString", "toString", "valueOf", "__proto__",
    "__defineGetter__", "__defineSetter__", "__lookupGetter__", "__lookupSetter__"
  }

  /** What `endpointMap[functionName]` reads: an own entry, an inherited member, or `undefined`. */
  datatype Lookup = OwnEntry(path: string) | Inherited(member: string) | Undefined

  /** The property read exactly as written, including the prototype chain. */
  function LookupAsWritten(name: string): (r: Lookup)
    ensures r.OwnEntry? <==> Resolve(name).Some?
    ensures r.OwnEntry? ==> r.path == Resolve(name).value.Path()
    ensures r.Inherited? <==> name in PrototypeMembers
  {
    if name == "search_vacancies_tool" then OwnEntry("/api/bot_tools/vacancies")
    else if name == "validate_registration_tool" then OwnEntry("/api/bot_tools/validate_registration")
    else if name in PrototypeMembers then Inherited(name)
    else Undefined
  }

  /** The `if (!endpoint)` guard as written only rejects `undefined`. */
  predicate PassesGuardAsWritten(name: string) {
    !LookupAsWritten(name).Undefined?
  }

  /** The guard as written lets an undeclared tool name through: a call named `toString` is not
      rejected, although neither tool has that name. */
  lemma InheritedNamePassesGuard()
    ensures PassesGuardAsWritten("toString")
    ensures Resolve("toString").None?
    ensures forall e: Endpoint :: ToolName(e) != "toString"
  {
  }

  /** With own entries only, the guard rejects exactly the names that are not a tool's name. */
  lemma ResolveRejectsUndeclared(name: string)
    ensures Resolve(name).None? <==> forall e: Endpoint :: ToolName(e) != name
  {
  }

  /** One backend request: the endpoint and the parsed arguments it is queried with. */
  datatype ToolRequest = ToolRequest(endpoint: Endpoint, args: string)

  /** The backend's answer: the parsed JSON body, serialised again with `JSON.stringify`, or a
      failure (`fetch` throws, the response is not `ok`, or `response.json()` rejects a body that
      is not JSON). */
  datatype ToolReply = ToolOk(json: string) | ToolError

  /** `JSON.stringify` of a JSON `null` body. Reading `length` of that body, as the gateway does
      when it logs the answer, throws. */
  const NullBody: string := "null"

  /** The gateway returns the answer: the backend answered, and with something other than `null`. */
  predicate Usable(reply: ToolReply) {
    reply.ToolOk? && reply.json != NullBody
  }

  /** The call's arguments parse and its name resolves, so a request is sent. */
  predicate Requested(c: ToolCall) {
    c.arguments.Some? && Resolve(c.name).Some?
  }

  function RequestFor(c: ToolCall): ToolRequest
    requires Requested(c)
  {
    ToolRequest(Resolve(c.name).value, c.arguments.value)
  }

  /** The call completes: its request is sent and the backend answers with a non-`null` body. */
  predicate Succeeds(c: ToolCall, backend: ToolRequest -> ToolReply) {
    Requested(c) && Usable(backend(RequestFor(c)))
  }

  /** The `role: "tool"` message a completed call contributes to the follow-up prompt. */
  function MessageFor(c: ToolCall, backend: ToolRequest -> ToolReply): ChatMessage
    requires Succeeds(c, backend)
  {
    ToolMsg(c.id, c.name, backend(RequestFor(c)).json)
  }

  /** The tool loop's effect: the tool messages built, the requests sent, and the index of the
      call that threw, if one did. */
  datatype Dispatched = Dispatched(messages: seq<ChatMessage>, requests: seq<ToolRequest>, failedAt: Option<nat>)

  /** How many calls completed. */
  function Completed(d: Dispatched, n: nat): nat {
    if d.failedAt.Some? then d.failedAt.value else n
  }

  /** Run the calls in order, stopping at the first that cannot be sent, whose request fails, or
      whose answer is `null`: the tool loop of the reply turn. */
  function Dispatch(calls: seq<ToolCall>, backend: ToolRequest -> ToolReply): (d: Dispatched)
    ensures d.failedAt.Some? ==> d.failedAt.value < |calls|
    ensures |d.messages| == Completed(d, |calls|)
    ensures Completed(d, |calls|) <= |d.requests| <= Completed(d, |calls|) + 1
    ensures d.failedAt.None? ==> |d.requests| == |calls|
  {
    if calls == [] then Dispatched([], [], None)
    else
      var c := calls[0];
      if !Requested(c) then Dispatched([], [], Some(0))
      else if !Usable(backend(RequestFor(c))) then Dispatched([], [RequestFor(c)], Some(0))
      else
        var rest := Dispatch(calls[1..], backend);
        var failedAt := if rest.failedAt.Some? then Some(rest.failedAt.value + 1) else None;
        Dispatched([MessageFor(c, backend)] + rest.messages, [RequestFor(c)] + rest.requests, failedAt)
  }

  /** The loop stops at the first call that does not complete, and only there. */
  lemma {:induction false} DispatchStopsAtFirstFailure(calls: seq<ToolCall>, backend: ToolRequest -> ToolReply)
    ensures var d := Dispatch(calls, backend);
            && (d.failedAt.Some? ==> !Succeeds(calls[d.failedAt.value], backend))
            && (forall i :: 0 <= i < Completed(d, |calls|) ==> Succeeds(calls[i], backend))
  {
    if calls != [] && Succeeds(calls[0], backend) {
      DispatchStopsAtFirstFailure(calls[1..], backend);
      var rest := Dispatch(calls[1..], backend);
      assert forall i :: 1 <= i < |calls| ==> calls[i] == calls[1..][i - 1];
      assert Completed(Dispatch(calls, backend), |calls|) == Completed(rest, |calls[1..]|) + 1;
    }
  }

  /** The loop fails exactly when some call does not complete. */
  lemma DispatchFailsIffSomeCallFails(calls: seq<ToolCall>, backend: ToolRequest -> ToolReply)
    ensures Dispatch(calls, backend).failedAt.None? <==> forall i :: 0 <= i < |calls| ==> Succeeds(calls[i], backend)
  {
    DispatchStopsAtFirstFailure(calls, backend);
  }

  /** One tool message per completed call, in call order, with the call's id and name and the
      backend's serialised answer as its content, unchanged. */
  lemma {:induction false} DispatchMessagesVerbatim(calls: seq<ToolCall>, backend: ToolRequest -> ToolReply)
    ensures var d := Dispatch(calls, backend);
            forall i :: 0 <= i < |d.messages| ==>
              Succeeds(calls[i], backend)
              && d.messages[i] == ToolMsg(calls[i].id, calls[i].name, backend(RequestFor(calls[i])).json)
  {
    if calls != [] && Succeeds(calls[0], backend) {
      DispatchMessagesVerbatim(calls[1..], backend);
      var d := Dispatch(calls, backend);
      var rest := Dispatch(calls[1..], backend);
      assert d.messages == [MessageFor(calls[0], backend)] + rest.messages;
      forall i | 1 <= i < |d.messages|
        ensures Succeeds(calls[i], backend)
        ensures d.messages[i] == ToolMsg(calls[i].id, calls[i].name, backend(RequestFor(calls[i])).json)
      {
        assert d.messages[i] == rest.messages[i - 1];
        assert calls[i] == calls[1..][i - 1];
      }
    }
  }

  /** The requests sent are those of the completed calls, in order, plus the failing call's own
      request when it got as far as being sent; a call whose arguments do not parse or whose name
      is unknown sends nothing. */
  lemma {:induction false} DispatchRequests(calls: seq<ToolCall>, backend: ToolRequest -> ToolReply)
    ensures var d := Dispatch(calls, backend);
            && |d.requests| == Completed(d, |calls|)
                 + (if d.failedAt.Some? && Requested(calls[d.failedAt.value]) then 1 else 0)
            && forall i :: 0 <= i < |d.requests| ==> Requested(calls[i]) && d.requests[i] == RequestFor(calls[i])
  {
    if calls != [] && Succeeds(calls[0], backend) {
      DispatchRequests(calls[1..], backend);
      var d := Dispatch(calls, backend);
      var rest := Dispatch(calls[1..], backend);
      assert d.requests == [RequestFor(calls[0])] + rest.requests;
      if rest.failedAt.Some? {
        assert calls[d.failedAt.value] == calls[1..][rest.failedAt.value];
      }
      forall i | 1 <= i < |d.requests|
        ensures Requested(calls[i]) && d.requests[i] == RequestFor(calls[i])
      {
        assert d.requests[i] == rest.requests[i - 1];
        assert calls[i] == calls[1..][i - 1];
      }
    }
  }

  /** An unknown tool name after completed calls ends the loop at that call, before any request
      for it is sent. */
  lemma UnknownToolStops(calls: seq<ToolCall>, backend: ToolRequest -> ToolReply, k: nat)
    requires k < |calls|
    requires forall i :: 0 <= i < k ==> Succeeds(calls[i], backend)
    requires Resolve(calls[k].name).None?
    ensures Dispatch(calls, backend).failedAt == Some(k)
    ensures |Dispatch(calls, backend).requests| == k
    ensures forall i :: 0 <= i < k ==> Succeeds(calls[i], backend) && Dispatch(calls, backend).requests[i] == RequestFor(calls[i])
  {
    DispatchStopsAtFirstFailure(calls, backend);
    DispatchRequests(calls, backend);
    assert !Requested(calls[k]);
  }

  /** A backend that answers `null` after completed calls ends the loop at that call: its request
      was sent, but no tool message is built for it. */
  lemma NullAnswerStops(calls: seq<ToolCall>, backend: ToolRequest -> ToolReply, k: nat)
    requires k < |calls|
    requires forall i :: 0 <= i < k ==> Succeeds(calls[i], backend)
    requires Requested(calls[k]) && backend(RequestFor(calls[k])) == ToolOk(NullBody)
    ensures Dispatch(calls, backend).failedAt == Some(k)
    ensures |Dispatch(calls, backend).messages| == k
    ensures |Dispatch(calls, backend).requests| == k + 1
    ensures Dispatch(calls, backend).requests[k] == RequestFor(calls[k])
  {
    DispatchStopsAtFirstFailure(calls, backend);
    DispatchRequests(calls, backend);
    assert !Succeeds(calls[k], backend);
  }
}

=== FILE: turn.dfy ===
/**
  One request to `/api/whatsauto_reply` as a single atomic step: validate the request, derive
  the chat id, apply the gate, build the prompt, ask the model, run its tool calls, ask again,
  and record the exchange in the history buffer. Every exception inside the turn becomes the
  fixed apology reply and leaves the state as it was.
 */
module Turn {
  import opened Common
  import opened ChatId
  import Store
  import opened Prompt
  import opened History
  import opened Tools

  /** The reply sent whenever the turn throws. */
  const Apology: string := "Lo siento, estoy teniendo un problema técnico."

  /** What the turn reads and writes: the store and the in-memory history buffers. */
  datatype State = State(db: Store.Db, history: Buffers)

  /** The sender and message after merging body and query string; `""` stands for a missing
      (falsy) field. */
  datatype Request = Request(sender: string, message: string)

  /** The turn's collaborators, as uninterpreted inputs: whether the conversation lookup fails,
      the system prompt built from the stored settings (`None` when reading them fails), the
      language model and the backend. */
  datatype Env = Env(
    lookupFailed: bool,
    systemPrompt: Option<string>,
    complete: seq<ChatMessage> -> Completion,
    backend: ToolRequest -> ToolReply)

  /** The response, the new state, and the trace of what the turn asked of the model (one prompt
      per call) and of the backend. */
  datatype Outcome =
    | BadRequest
    | Replied(reply: string, state: State, prompts: seq<seq<ChatMessage>>, requests: seq<ToolRequest>)

  /** The prompt of the first model call: system instruction, history, then the new message. */
  function FirstPrompt(st: State, chatId: string, systemPrompt: string, message: string): (p: seq<ChatMessage>)
    ensures |p| == |Past(st.history, chatId)| + 2
    ensures p[0] == SystemMsg(systemPrompt) && p[|p| - 1] == UserMsg(message)
    ensures p[1..|p| - 1] == Past(st.history, chatId)
  {
    [SystemMsg(systemPrompt)] + Past(st.history, chatId) + [UserMsg(message)]
  }

  /** The state after an answered message: only this chat's history buffer moves. */
  function Answered(st: State, chatId: string, message: string, reply: string): (s: State)
    ensures s.db == st.db
    ensures chatId in s.history && s.history[chatId] == Record(Past(st.history, chatId), message, reply)
    ensures forall c :: c != chatId ==> (c in s.history <==> c in st.history)
    ensures forall c :: c in st.history && c != chatId ==> s.history[c] == st.history[c]
  {
    st.(history := st.history[chatId := Record(Past(st.history, chatId), message, reply)])
  }

  /** Send the final content: a `null` content throws when it is logged, so it apologises. */
  function Finish(st: State, chatId: string, message: string, content: Option<string>,
                  prompts: seq<seq<ChatMessage>>, requests: seq<ToolRequest>): (r: Outcome)
    ensures r.Replied? && r.prompts == prompts && r.requests == requests
    ensures content.None? ==> r.reply == Apology && r.state == st
    ensures content.Some? ==> r.reply == content.value && r.state == Answered(st, chatId, message, content.value)
  {
    match content
    case None => Replied(Apology, st, prompts, requests)
    case Some(text) => Replied(text, Answered(st, chatId, message, text), prompts, requests)
  }

  /** The whole reply turn. */
  function Reply(st: State, rq: Request, env: Env): (r: Outcome)
    ensures r.BadRequest? <==> rq.sender == "" || rq.message == ""
    ensures r.Replied? ==> r.state.db == st.db
    ensures r.Replied? ==>
              r.state == st
              || r.state == Answered(st, ChatIdOf(rq.sender), rq.message, r.reply)
    ensures r.Replied? && !Store.Gate(st.db.conversations, ChatIdOf(rq.sender), env.lookupFailed) ==>
              r.reply == "" && r.prompts == [] && r.requests == [] && r.state == st
    ensures r.Replied? && Store.Gate(st.db.conversations, ChatIdOf(rq.sender), env.lookupFailed)
            && env.systemPrompt.Some? ==>
              1 <= |r.prompts| <= 2
              && r.prompts[0] == FirstPrompt(st, ChatIdOf(rq.sender), env.systemPrompt.value, rq.message)
    ensures r.Replied? && r.prompts == [] ==> r.state == st && r.requests == []
    ensures r.Replied? && Store.Gate(st.db.conversations, ChatIdOf(rq.sender), env.lookupFailed)
            && env.systemPrompt.Some? ==>
              var chatId := ChatIdOf(rq.sender);
              var first := FirstPrompt(st, chatId, env.systemPrompt.value, rq.message);
              var answer := env.complete(first);
              && (answer.Answer? && answer.toolCalls.None? && answer.content.Some? ==>
                    r == Replied(answer.content.value, Answered(st, chatId, rq.message, answer.content.value), [first], []))
              && (answer.Answer? && answer.toolCalls.Some? && Dispatch(answer.toolCalls.value, env.backend).failedAt.None? ==>
                    var d := Dispatch(answer.toolCalls.value, env.backend);
                    var second := first + [AssistantMsg(answer.content, answer.toolCalls)] + d.messages;
                    var final := env.complete(second);
                    && r.prompts == [first, second] && r.requests == d.requests
                    && (final.Answer? && final.content.Some? ==>
                          r.reply == final.content.value && r.state == Answered(st, chatId, rq.message, final.content.value))
                    && (!final.Answer? || final.content.None? ==> r.reply == Apology && r.state == st))
  {
    if rq.sender == "" || rq.message == "" then BadRequest
    else
      var chatId := ChatIdOf(rq.sender);
      if !Store.Gate(st.db.conversations, chatId, env.lookupFailed) then Replied("", st, [], [])
      else
        match env.systemPrompt
        case None => Replied(Apology, st, [], [])
        case Some(sp) =>
          var first := FirstPrompt(st, chatId, sp, rq.message);
          match env.complete(first)
          case ModelError => Replied(Apology, st, [first], [])
          case Answer(content, None) => Finish(st, chatId, rq.message, content, [first], [])
          case Answer(content, Some(calls)) =>
            var d := Dispatch(calls, env.backend);
            if d.failedAt.Some? then Replied(Apology, st, [first], d.requests)
            else
              var second := first + [AssistantMsg(content, Some(calls))] + d.messages;
              match env.complete(second)
              case ModelError => Replied(Apology, st, [first, second], d.requests)
              case Answer(final, _) => Finish(st, chatId, rq.message, final, [first, second], d.requests)
  }

  /** A request passes validation and the gate, so the turn reaches the model. */
  ghost predicate Admitted(st: State, rq: Request, env: Env) {
    rq.sender != "" && rq.message != ""
    && Store.Gate(st.db.conversations, ChatIdOf(rq.sender), env.lookupFailed)
  }

  /** After the operator disables a chat, every message from a sender with that chat's digits
      gets the empty reply, without any model call or backend request, and changes nothing. */
  lemma DisabledChatIsSilent(st: State, rq: Request, env: Env)
    requires rq.sender != "" && rq.message != ""
    ensures var st' := st.(db := st.db.(conversations := Store.DisableBot(st.db.conversations, ChatIdOf(rq.sender))));
            Reply(st', rq, env) == Replied("", st', [], [])
  {
  }

  /** A chat without a conversation row is answered like an enabled one. */
  lemma MissingRowCountsAsActive(st: State, rq: Request, env: Env)
    requires rq.sender != "" && rq.message != "" && !env.lookupFailed
    requires ChatIdOf(rq.sender) !in st.db.conversations
    ensures Admitted(st, rq, env)
    ensures env.systemPrompt.Some? ==> |Reply(st, rq, env).prompts| >= 1
  {
  }

  /** Each way the turn can throw ends in the apology with the state untouched. */
  lemma FailuresApologise(st: State, rq: Request, env: Env)
    requires Admitted(st, rq, env)
    ensures env.systemPrompt.None? ==> Reply(st, rq, env) == Replied(Apology, st, [], [])
    ensures env.systemPrompt.Some? ==>
              var first := FirstPrompt(st, ChatIdOf(rq.sender), env.systemPrompt.value, rq.message);
              && (env.complete(first).ModelError? ==> Reply(st, rq, env) == Replied(Apology, st, [first], []))
              && (env.complete(first) == Answer(None, None) ==> Reply(st, rq, env) == Replied(Apology, st, [first], []))
              && (env.complete(first).Answer? && env.complete(first).toolCalls.Some? ==>
                    var d := Dispatch(env.complete(first).toolCalls.value, env.backend);
                    && (d.failedAt.Some? ==> Reply(st, rq, env) == Replied(Apology, st, [first], d.requests))
                    && (d.failedAt.None? ==>
                          var second := first + [AssistantMsg(env.complete(first).content, env.complete(first).toolCalls)] + d.messages;
                          && (env.complete(second).ModelError? ==>
                                Reply(st, rq, env) == Replied(Apology, st, [first, second], d.requests))
                          && (env.complete(second).Answer? && env.complete(second).content.None? ==>
                                Reply(st, rq, env) == Replied(Apology, st, [first, second], d.requests))))
  {
  }

  /** A tool call with an unknown name, after calls that completed, aborts the turn with the
      apology: its request is never sent, there is no second model call, nothing is recorded. */
  lemma UnknownToolAbortsTurn(st: State, rq: Request, env: Env, k: nat)
    requires Admitted(st, rq, env) && env.systemPrompt.Some?
    requires var first := FirstPrompt(st, ChatIdOf(rq.sender), env.systemPrompt.value, rq.message);
             && env.complete(first).Answer? && env.complete(first).toolCalls.Some?
             && var calls := env.complete(first).toolCalls.value;
                && k < |calls|
                && (forall i :: 0 <= i < k ==> Succeeds(calls[i], env.backend))
                && Resolve(calls[k].name).None?
    ensures var r := Reply(st, rq, env);
            && r.reply == Apology && r.state == st && |r.prompts| == 1 && |r.requests| == k
  {
    var first := FirstPrompt(st, ChatIdOf(rq.sender), env.systemPrompt.value, rq.message);
    UnknownToolStops(env.complete(first).toolCalls.value, env.backend, k);
  }

  /** A backend answering `null` to a tool call, after calls that completed, aborts the turn with
      the apology: that call's request was sent, but the model is not asked again and nothing is
      recorded. */
  lemma NullToolAnswerAbortsTurn(st: State, rq: Request, env: Env, k: nat)
    requires Admitted(st, rq, env) && env.systemPrompt.Some?
    requires var first := FirstPrompt(st, ChatIdOf(rq.sender), env.systemPrompt.value, rq.message);
             && env.complete(first).Answer? && env.complete(first).toolCalls.Some?
             && var calls := env.complete(first).toolCalls.value;
                && k < |calls|
                && (forall i :: 0 <= i < k ==> Succeeds(calls[i], env.backend))
                && Requested(calls[k]) && env.backend(RequestFor(calls[k])) == ToolOk(NullBody)
    ensures var r := Reply(st, rq, env);
            && r.reply == Apology && r.state == st && |r.prompts| == 1 && |r.requests| == k + 1
  {
    var first := FirstPrompt(st, ChatIdOf(rq.sender), env.systemPrompt.value, rq.message);
    NullAnswerStops(env.complete(first).toolCalls.value, env.backend, k);
  }

  /** When every tool call completes, the second prompt is the first, then the model's tool-call
      message, then exactly one tool message per call, in call order, whose id and name are the
      call's and whose content is the backend's serialised answer. */
  lemma ToolResultsForwardedVerbatim(st: State, rq: Request, env: Env)
    requires Admitted(st, rq, env) && env.systemPrompt.Some?
    requires var first := FirstPrompt(st, ChatIdOf(rq.sender), env.systemPrompt.value, rq.message);
             && env.complete(first).Answer? && env.complete(first).toolCalls.Some?
             && var calls := env.complete(first).toolCalls.value;
                forall i :: 0 <= i < |calls| ==> Succeeds(calls[i], env.backend)
    ensures var first := FirstPrompt(st, ChatIdOf(rq.sender), env.systemPrompt.value, rq.message);
            var answer := env.complete(first);
            var calls := answer.toolCalls.value;
            var r := Reply(st, rq, env);
            && |r.prompts| == 2
            && |r.prompts[1]| == |first| + 1 + |calls|
            && r.prompts[1][..|first| + 1] == first + [AssistantMsg(answer.content, Some(calls))]
            && (forall i :: 0 <= i < |calls| ==>
                  r.prompts[1][|first| + 1 + i]
                    == ToolMsg(calls[i].id, calls[i].name, env.backend(RequestFor(calls[i])).json))
            && |r.requests| == |calls|
  {
    var first := FirstPrompt(st, ChatIdOf(rq.sender), env.systemPrompt.value, rq.message);
    var calls := env.complete(first).toolCalls.value;
    DispatchFailsIffSomeCallFails(calls, env.backend);
    DispatchMessagesVerbatim(calls, env.backend);
    DispatchRequests(calls, env.backend);
  }

  /** An answered message ends the chat's history with the user's text and the reply, and the
      buffer stays within the limit. */
  lemma AnsweredEndsWithExchange(st: State, rq: Request, env: Env)
    requires Reply(st, rq, env).Replied?
    requires Reply(st, rq, env).state == Answered(st, ChatIdOf(rq.sender), rq.message, Reply(st, rq, env).reply)
    ensures var r := Reply(st, rq, env);
            var h := r.state.history[ChatIdOf(rq.sender)];
            && |h| <= HistoryLimit
            && h[|h| - 2..] == [UserMsg(rq.message), AssistantMsg(Some(r.reply), None)]
  {
  }

  /** If every buffer is within the limit before a turn, every buffer is within it after. */
  lemma TurnKeepsHistoryBounded(st: State, rq: Request, env: Env)
    requires Bounded(st.history)
    ensures Reply(st, rq, env).Replied? ==> Bounded(Reply(st, rq, env).state.history)
  {
    var r := Reply(st, rq, env);
    if r.Replied? && r.state != st {
      var chatId := ChatIdOf(rq.sender);
      var h := r.state.history;
      assert r.state == Answered(st, chatId, rq.message, r.reply);
      forall c | c in h ensures |h[c]| <= HistoryLimit {
        if c != chatId {
          assert h[c] == st.history[c];
        }
      }
    }
  }

  /** A present but empty list of tool calls still counts as tool use: the model is asked a
      second time, with its own message appended and no tool message. */
  lemma EmptyToolListAsksAgain(st: State, rq: Request, env: Env, content: Option<string>)
    requires Admitted(st, rq, env) && env.systemPrompt.Some?
    requires env.complete(FirstPrompt(st, ChatIdOf(rq.sender), env.systemPrompt.value, rq.message))
             == Answer(content, Some([]))
    ensures var first := FirstPrompt(st, ChatIdOf(rq.sender), env.systemPrompt.value, rq.message);
            var r := Reply(st, rq, env);
            r.prompts == [first, first + [AssistantMsg(content, Some([]))]] && r.requests == []
  {
    var first := FirstPrompt(st, ChatIdOf(rq.sender), env.systemPrompt.value, rq.message);
    assert first + [AssistantMsg(content, Some([]))] + [] == first + [AssistantMsg(content, Some([]))];
  }
}
